=== FILE: README.md ===
# Albion refining calculator — Dafny model

This project models the calculation behind the Albion Online refining page in
`refining.py`. That calculation does four things:

- It builds the market identifiers of the raw resource, the crafted resource
  (the refined item one tier down) and the product.
- It relabels every fetched price row to its display columns.
- It picks the price rows the profit estimate uses:
  - the cheapest buy order of each resource;
  - the product's highest sell-order minimum;
  - the product's highest buy-order maximum.
- It looks up the tier tables and computes the resource cost and the four
  profit figures.

Modules, one per concern:

- `Results` holds `Option`, `Result` and the three Python exceptions the core
  can raise:
  - `KeyError` from a dictionary lookup or a `pop`;
  - `IndexError` from a list index;
  - the `ValueError` of `min`/`max` over an empty filter, written `EmptySequence`.
- `Decimal` is Python's `str` of an integer, with a parser that inverts it.
- `ItemIds` is `get_raw_resource` together with an identifier parser. The
  parser recovers tier, item and enchantment from every identifier the builder
  produces from an item name without an underscore.
- `Columns` is `COLUMN_KEY_NAMES`, `get_key` and the pop-and-rename loop of
  `get_prices`.
- `Prices` holds `get_resource_price` and `get_product_price`. Python's
  `min`/`max` walk the filtered rows left to right and replace their choice
  only on a strictly better key. So the earliest extreme row wins a tie, and an
  empty filter raises.
- `Refining` holds the following:
  - the two tier tables and `PREVIOUS_RAW_RESOURCE`;
  - Python list indexing, negative positions included;
  - the identifier derivations and the resource cost of `main`;
  - the profit formulas in exact `real` arithmetic;
  - `Evaluate`, which is `main` given the price rows.

The price rows are the `prices` parameter of `Evaluate`. This covers both the
HTTP fetch and the user's edits in the data grid.

`Evaluate` can fail only in three ways:

- an item missing from `PREVIOUS_RAW_RESOURCE` gives `KeyError`;
- an index outside a tier table gives `IndexError`;
- an identifier with no price row gives `EmptySequence`.

On the form's domain (five items, tiers 4 to 8, enchantments 0 to 3), every
table index is in range. On that domain the only failure is a missing price row.

At tier 5, enchantment 0, `main` reads `TIER_ITEM_VALUE[tier + enchantment - 1]`,
position 4, so the item value is 32 and the nutrition cost 3.6
(`Refining.TierFiveTables`).

## Model

| member | source | states |
|---|---|---|
| Decimal.ParseIntToString | refining.py:52 | The numeral `str(tier)` prints reads back as the same integer, negative tiers included. |
| Decimal.IntToStringInjective | refining.py:52 | Two different tiers never print the same numeral. |
| ItemIds.RawResourceLayout | refining.py:51-57 | The identifier starts with `T{tier}_{item}`. It is exactly that string when the enchantment is not positive. Otherwise it continues with `_LEVEL`, a numeral, `@` and the same numeral. That numeral has no leading zero and reads as the enchantment. |
| ItemIds.ParseRawResource | refining.py:51-57 | Decoding a built identifier gives back the tier, the item and the enchantment, with any non-positive enchantment read as 0. This holds for underscore-free item names. |
| ItemIds.RawResourceOfParse | refining.py:51-57 | Every identifier the decoder accepts is exactly the one the builder makes from its decoding. |
| ItemIds.RawResourceInjective | refining.py:51-57 | For item names without an underscore, two builds give the same identifier only for the same tier, the same item and the same effective enchantment. |
| Columns.GetKey | refining.py:21-22 | It succeeds exactly for the eleven listed market columns and then returns the label the table pairs with that column. Any other key raises `KeyError`. |
| Columns.GetKeyAt | refining.py:21-22 | Each listed column gets its own label from `get_key`. |
| Columns.ColumnKeyNamesWellFormed | refining.py:6-18 | In the label table, columns are distinct, non-empty labels are distinct, and no label is also a column name. |
| Columns.RelabelRowCorrect | refining.py:30-35 | For a well-formed table, the loop succeeds exactly when the row has every listed column. Otherwise it raises `KeyError` for the first column, in table order, that the row lacks. On success the result has these properties: the listed columns are gone; each non-empty label holds its column's original value; columns with an empty label are dropped; every other key keeps its value. |
| Columns.RelabelRowFailure | refining.py:30-35 | For a well-formed table, a failing loop raises `KeyError` for the first column, in table order, that the row lacks. |
| Columns.RelabelRows | refining.py:30-37 | The outer loop succeeds exactly when every row does, and then returns each row's relabelling in order. Otherwise it raises the error of the first row that fails. |
| Columns.RelabelMarketRow | refining.py:6-35 | A row with exactly the market's eleven columns comes out with exactly the six non-empty labels. Each label holds the value of its column. |
| Columns.SelectorKeysSurvive | refining.py:6-22 | The columns read through `get_key` have non-empty labels, so a relabelled row still carries them: item_id, sell_price_min and buy_price_max, which the selectors and the cost read, and city, which the price display reads. |
| Prices.Matching | refining.py:41 | The filter's result holds exactly the rows of the requested item, and is no longer than its input. |
| Prices.MatchingAppend | refining.py:41 | Filtering a concatenation is the concatenation of the filtered parts, so the filter keeps rows in their order and with their repetitions. |
| Prices.MatchingOne | refining.py:41 | A single row passes the filter exactly when it has the requested item. |
| Prices.BestIndex | refining.py:48 | The left-to-right reduction lands on a row that no row beats and that strictly beats every row before it. |
| Prices.FirstBestUnique | refining.py:47-48 | At most one position is the first best, so the selection is fully determined. |
| Prices.SelectBestIsFirstBest | refining.py:40-48 | Filtering then reducing fails exactly when no row has the item, with the empty-sequence error. Otherwise it returns the row at the first best position of the unfiltered list. |
| Prices.GetResourcePrice | refining.py:47-48 | It fails exactly when no row has the resource. Otherwise it returns a row of that resource with the least buy-order maximum, the earliest such row on a tie. |
| Prices.GetProductPrice | refining.py:40-44 | It fails exactly when no row has the product. Otherwise it returns two independently chosen rows: the first row with the greatest sell-order minimum, and the first row with the greatest buy-order maximum. |
| Prices.SingleRowSelected | refining.py:40-48 | When a single row has the item, every selection returns that row. |
| Prices.IndependentProductChoice | refining.py:40-44 | Take rows A (sell 100, buy 90) and B (sell 80, buy 120). The sell order comes from A and the buy order from B. |
| Prices.TieGoesToEarliest | refining.py:47-48 | Between two rows with equal buy-order maxima, the resource selection returns the first. |
| Refining.PyIndex | refining.py:127 | A list index succeeds exactly for positions from -len to len-1 and otherwise raises `IndexError`. Non-negative positions read that element, and a negative position `i` reads element `len + i`, counting from the end. |
| Refining.ItemValue | refining.py:127 | The lookup succeeds exactly when tier + enchantment - 1 is in -11..10. On the form's domain it is 16 at tier 4, enchantment 0, doubling with each further tier or level, with no wrap-around. |
| Refining.ItemValueDoubles | refining.py:61 | From position 3 to position 10, the item-value table holds 16 doubled once per position. |
| Refining.RawRequirement | refining.py:60 | The lookup succeeds exactly for tiers -9..8, with a value of 0 to 5. On tiers 4 to 8 it is between 2 and 5. |
| Refining.RawRequirementMonotone | refining.py:60 | On the form, a higher tier never needs fewer raw units. |
| Refining.ResourceCost | refining.py:139 | The cost is defined exactly when the raw-requirement lookup is. Otherwise it raises `IndexError` at the tier. |
| Refining.ResourceCostMonotone | refining.py:139 | On the form's tiers with non-negative prices, the cost is non-negative and at least twice the raw price plus the crafted price. It never falls when either buy price rises. |
| Refining.ResourceCostNonNegative | refining.py:139 | Non-negative buy prices give a non-negative cost at any tier the table accepts. |
| Refining.ProfitWithoutReturnOrFee | refining.py:128-144 | With a zero market fee and no return, a profit figure is (order price - resource cost) × units, whatever the item value behind the nutrition cost. |
| Refining.HigherReturnRateNeverLowersProfit | refining.py:141-144 | A higher return rate never lowers a profit figure, given a non-negative cost and at least one unit. |
| Refining.Figures | refining.py:141-144 | Given a non-negative cost, at least one unit and a focus rate at least the plain one, each with-focus figure is at least its without-focus figure. |
| Refining.FocusNeverLowersEither | refining.py:141-144 | Given a non-negative cost, at least one unit and a focus rate at least the plain one, the with-focus figure is at least the without-focus one, for both the sell-order and the buy-order price. |
| Refining.DeriveIds | refining.py:123-125 | Items outside `PREVIOUS_RAW_RESOURCE` raise `KeyError`. Otherwise the three identifiers decode as follows: the raw resource at the tier, the item one tier down, and the item at the tier, all with the effective enchantment. The three are pairwise distinct. |
| Refining.ItemNamesPlain | refining.py:63-69 | Item names and their raw resources have no underscore, and no item is its own raw resource. |
| Refining.SelectPrices | refining.py:135-137 | The three lookups succeed exactly when all three identifiers have a row. Each chosen row is the first-wins choice of its rule. |
| Refining.Quote | refining.py:139-144 | It fails with `IndexError` exactly when the tier is outside the raw-requirement table. With non-negative buy prices, the cost is not negative, and on tiers 4 to 8 it is at least twice the raw price plus the crafted price. With at least one unit and a focus rate at least the plain one, neither with-focus figure is below its without-focus figure. |
| Refining.CostBounds | refining.py:139 | With non-negative buy prices, the cost is not negative wherever it is defined, and on tiers 4 to 8 it is at least twice the raw price plus the crafted price. |
| Refining.Evaluate | refining.py:122-144 | An unknown item raises `KeyError`. On the form it succeeds exactly when all three identifiers have a price row. On success, the estimate is built as follows: the identifiers from the derivations; the item value from the table; each price row as the first-wins choice of its rule; the cost and the profit figures from those rows. |
| Refining.EstimateFocusNeverLowersProfit | refining.py:139-144 | With non-negative resource prices, the estimate's cost is non-negative. With at least one unit and a focus rate at least the plain one, neither with-focus figure is below its without-focus figure. |
| Refining.PlanksAtTierFive | refining.py:123-125 | Tier 5 planks, unenchanted, fetch T5_WOOD, T4_PLANKS and T5_PLANKS. |
| Refining.EnchantedLeather | refining.py:123-125 | At tier 6, enchantment 2, leather fetches T6_HIDE_LEVEL2@2, T5_LEATHER_LEVEL2@2 and T6_LEATHER_LEVEL2@2. |
| Refining.TierFiveTables | refining.py:127-128 | At tier 5, enchantment 0, the item value is 32, the nutrition cost 3.6 and the raw requirement 3. |

## Left out

- The HTTP request, the URL, JSON decoding and the `st.cache_data` memoisation of `get_prices` are I/O and library caching. The rows they produce are a parameter.
- The Streamlit page is presentation only: page setup, form widgets, the editable data grid, metric tiles, number formatting and the footer. The grid's edited rows are the `prices` parameter. The form's widget domains are the `OnForm` predicate.
- The `with_focus` checkbox only chooses which two of the four figures are shown. `Evaluate` computes all four.
- `RESOURCE_TRANSLATIONS` and `ITEM_TRANSLATIONS` are display labels with no logic. The item selectbox offers `ITEM_TRANSLATIONS.keys()` (refining.py:110), which are exactly the keys of `PREVIOUS_RAW_RESOURCE`; that is why `OnForm` requires the item to be one of those keys.
- Refining.Profit, Refining.NutritionCost and Refining.FeePerUnit use exact `real` arithmetic in place of Python floats, so rounding is not modelled.
- Prices.PriceRecord keeps the item, the city and the four order prices of a relabelled row. Quality and the timestamps are dropped by relabelling. Values the data grid could turn into non-numbers are not modelled.
- Columns.RelabelRow works on rows as maps with values of any type. It is not linked to `PriceRecord` by a lemma; the column-to-field correspondence is the one `SelectorKeysSurvive` lists.
- ItemIds.ParseRawResource inverts the builder only for item names without an underscore. All five items and their raw resources meet this condition (`Refining.ItemNamesPlain`).
- Refining.Evaluate states its "succeeds exactly when" direction only on the form's domain. Off that domain, table lookups may also raise `IndexError`. Negative positions wrap round, as in Python.

=== FILE: columns.dfy ===
/** The relabelling every fetched price row goes through: each column the
    market reports is either dropped (its display label is empty) or moved to
    its Spanish display label. The loop pops the columns in the order of the
    label table, so a row lacking one of them raises `KeyError`.
 */
module Columns {
  import opened Results

  /** The label table, in its declaration order: (market column, display label). */
  const ColumnKeyNames: seq<(string, string)> := [
    ("item_id", "Item"),
    ("city", "Ciudad"),
    ("quality", ""),
    ("sell_price_min", "Orden de Venta (Min)"),
    ("sell_price_min_date", ""),
    ("sell_price_max", "Orden de Venta (Max)"),
    ("sell_price_max_date", ""),
    ("buy_price_min", "Orden de Compra (Min)"),
    ("buy_price_min_date", ""),
    ("buy_price_max", "Orden de Compra (Max)"),
    ("buy_price_max_date", "")
  ]

  /** The market columns a table renames or drops. */
  function SourceKeys(columns: seq<(string, string)>): set<string> {
    set i | 0 <= i < |columns| :: columns[i].0
  }

  /** The non-empty display labels of a table. */
  function Labels(columns: seq<(string, string)>): set<string> {
    set i | 0 <= i < |columns| && columns[i].1 != "" :: columns[i].1
  }

  /** No market column is listed twice, no two columns share a display label,
      and no display label is also a market column. */
  predicate WellFormed(columns: seq<(string, string)>) {
    && (forall i, j :: 0 <= i < j < |columns| ==> columns[i].0 != columns[j].0)
    && (forall i, j :: 0 <= i < j < |columns| && columns[i].1 != "" ==> columns[i].1 != columns[j].1)
    && (forall i, j :: 0 <= i < |columns| && 0 <= j < |columns| ==> columns[i].0 != columns[j].1)
  }

  /** `get_key`: the display label of a market column; `KeyError` for a column the table lacks. */
  function GetKey(key: string): (r: Result<string>)
    ensures r.Success? <==> key in SourceKeys(ColumnKeyNames)
    ensures r.Success? ==> exists i :: 0 <= i < |ColumnKeyNames| && ColumnKeyNames[i] == (key, r.value)
    ensures r.Failure? ==> r.error == KeyError(key)
  {
    LookUp(ColumnKeyNames, key)
  }

  function LookUp(columns: seq<(string, string)>, key: string): (r: Result<string>)
    ensures r.Success? <==> key in SourceKeys(columns)
    ensures r.Success? ==> exists i :: 0 <= i < |columns| && columns[i] == (key, r.value)
    ensures r.Failure? ==> r.error == KeyError(key)
    decreases |columns|
  {
    if |columns| == 0 then Failure(KeyError(key))
    else if columns[0].0 == key then Success(columns[0].1)
    else
      var r := LookUp(columns[1..], key);
      assert SourceKeys(columns) == {columns[0].0} + SourceKeys(columns[1..]) by {
        SourceKeysCons(columns);
      }
      if r.Success? then
        var i :| 0 <= i < |columns[1..]| && columns[1..][i] == (key, r.value);
        assert columns[i + 1] == (key, r.value);
        r
      else r
  }

  /** One row through the loop: visit the table's entries in order, popping
      each market column and, unless its label is empty, storing the value
      under the label. */
  function RelabelRow<V>(row: map<string, V>, columns: seq<(string, string)>): Result<map<string, V>>
    decreases |columns|
  {
    if |columns| == 0 then Success(row)
    else
      var (key, display) := columns[0];
      if key !in row then Failure(KeyError(key))
      else
        var popped := row - {key};
        var next := if display == "" then popped else popped[display := row[key]];
        RelabelRow(next, columns[1..])
  }

  /** The outer loop over all fetched rows; the first row lacking a column aborts it. */
  function RelabelRows<V>(rows: seq<map<string, V>>, columns: seq<(string, string)>): (r: Result<seq<map<string, V>>>)
    ensures r.Success? ==> |r.value| == |rows|
    ensures r.Success? ==> forall i :: 0 <= i < |rows| ==> RelabelRow(rows[i], columns) == Success(r.value[i])
    ensures r.Success? <==> forall i :: 0 <= i < |rows| ==> RelabelRow(rows[i], columns).Success?
    ensures r.Failure? ==>
              exists k :: && 0 <= k < |rows|
                          && (forall i :: 0 <= i < k ==> RelabelRow(rows[i], columns).Success?)
                          && RelabelRow(rows[k], columns) == Failure(r.error)
    decreases |rows|
  {
    if |rows| == 0 then Success([])
    else
      match RelabelRow(rows[0], columns)
      case Failure(e) => Failure(e)
      case Success(first) =>
        assert forall i :: 1 <= i < |rows| ==> rows[i] == rows[1..][i - 1];
        match RelabelRows(rows[1..], columns)
        case Failure(e) =>
          var k :| && 0 <= k < |rows[1..]|
                   && (forall i :: 0 <= i < k ==> RelabelRow(rows[1..][i], columns).Success?)
                   && RelabelRow(rows[1..][k], columns) == Failure(e);
          assert RelabelRow(rows[k + 1], columns) == Failure(e);
          Failure(e)
        case Success(others) =>
          Success([first] + others)
  }

  /** What relabelling promises of the row `r` it makes from `row`: the market
      columns are gone, every label holds the value of its column, and every
      other key keeps its value. */
  ghost predicate RelabelledFrom<V>(r: map<string, V>, row: map<string, V>, columns: seq<(string, string)>) {
    && r.Keys == (row.Keys - SourceKeys(columns)) + Labels(columns)
    && (forall i :: 0 <= i < |columns| && columns[i].1 != "" ==>
          columns[i].1 in r && columns[i].0 in row && r[columns[i].1] == row[columns[i].0])
    && (forall k :: k in row && k !in SourceKeys(columns) && k !in Labels(columns) ==> k in r && r[k] == row[k])
  }

  lemma SourceKeysCons(columns: seq<(string, string)>)
    requires |columns| > 0
    ensures SourceKeys(columns) == {columns[0].0} + SourceKeys(columns[1..])
  {
    var rest := columns[1..];
    forall k | k in SourceKeys(columns) ensures k in {columns[0].0} + SourceKeys(rest) {
      var i :| 0 <= i < |columns| && columns[i].0 == k;
      if i > 0 {
        assert rest[i - 1] == columns[i];
      }
    }
    forall k | k in SourceKeys(rest) ensures k in SourceKeys(columns) {
      var i :| 0 <= i < |rest| && rest[i].0 == k;
      assert columns[i + 1] == rest[i];
    }
  }

  lemma LabelsCons(columns: seq<(string, string)>)
    requires |columns| > 0
    ensures Labels(columns) == (if columns[0].1 == "" then {} else {columns[0].1}) + Labels(columns[1..])
  {
    var rest := columns[1..];
    forall k | k in Labels(columns)
      ensures k in (if columns[0].1 == "" then {} else {columns[0].1}) + Labels(rest)
    {
      var i :| 0 <= i < |columns| && columns[i].1 != "" && columns[i].1 == k;
      if i > 0 {
        assert rest[i - 1] == columns[i];
      }
    }
    forall k | k in Labels(rest) ensures k in Labels(columns) {
      var i :| 0 <= i < |rest| && rest[i].1 != "" && rest[i].1 == k;
      assert columns[i + 1] == rest[i];
    }
  }

  /** For a well-formed table the sequential loop is a simultaneous renaming:
      it succeeds exactly when the row has every market column, and then
      yields the row `RelabelledFrom` describes. */
  lemma {:induction false} RelabelRowCorrect<V>(row: map<string, V>, columns: seq<(string, string)>)
    requires WellFormed(columns)
    ensures RelabelRow(row, columns).Success? <==> SourceKeys(columns) <= row.Keys
    ensures RelabelRow(row, columns).Success? ==> RelabelledFrom(RelabelRow(row, columns).value, row, columns)
    ensures RelabelRow(row, columns).Failure? ==>
              exists j :: FirstMissing(row, columns, j) && RelabelRow(row, columns).error == KeyError(columns[j].0)
    decreases |columns|
  {
    RelabelRowFailure(row, columns);
    if |columns| == 0 {
      return;
    }
    var (key, display) := columns[0];
    var rest := columns[1..];
    SourceKeysCons(columns);
    LabelsCons(columns);
    assert key !in SourceKeys(rest);
    assert key !in Labels(columns);
    assert display != "" ==> display !in SourceKeys(rest) && display !in Labels(rest);
    if key !in row {
      return;
    }
    var popped := row - {key};
    var next := if display == "" then popped else popped[display := row[key]];
    WellFormedTail(columns);
    RelabelRowCorrect(next, rest);
    assert RelabelRow(row, columns) == RelabelRow(next, rest);
    assert SourceKeys(rest) <= next.Keys <==> SourceKeys(rest) <= row.Keys;
    if RelabelRow(next, rest).Success? {
      var r := RelabelRow(next, rest).value;
      assert r.Keys == (row.Keys - SourceKeys(columns)) + Labels(columns);
      forall i | 0 <= i < |columns| && columns[i].1 != ""
        ensures columns[i].1 in r && columns[i].0 in row && r[columns[i].1] == row[columns[i].0]
      {
        if i == 0 {
          assert display in next && next[display] == row[key];
        } else {
          assert rest[i - 1] == columns[i];
          assert columns[i].0 != key;
          assert columns[i].0 != display;
        }
      }
    }
  }

  /** Column `j` is the first of the table, in its order, that the row lacks. */
  predicate FirstMissing<V>(row: map<string, V>, columns: seq<(string, string)>, j: int) {
    && 0 <= j < |columns|
    && columns[j].0 !in row
    && (forall i :: 0 <= i < j ==> columns[i].0 in row)
  }

  /** A well-formed table stays well-formed without its first entry. */
  lemma WellFormedTail(columns: seq<(string, string)>)
    requires WellFormed(columns) && |columns| > 0
    ensures WellFormed(columns[1..])
  {
    var rest := columns[1..];
    forall i, j | 0 <= i < |rest| && 0 <= j < |rest| ensures rest[i].0 != rest[j].1 {
      assert columns[i + 1].0 != columns[j + 1].1;
    }
    forall i, j | 0 <= i < j < |rest| ensures rest[i].0 != rest[j].0 {
      assert columns[i + 1].0 != columns[j + 1].0;
    }
    forall i, j | 0 <= i < j < |rest| && rest[i].1 != "" ensures rest[i].1 != rest[j].1 {
      assert columns[i + 1].1 != columns[j + 1].1;
    }
  }

  /** The loop fails with `KeyError` of the first column, in table order, that
      the row lacks: earlier pops and stores never remove or add a column the
      table has yet to visit. */
  lemma {:induction false} RelabelRowFailure<V>(row: map<string, V>, columns: seq<(string, string)>)
    requires WellFormed(columns)
    ensures RelabelRow(row, columns).Failure? ==>
              exists j :: FirstMissing(row, columns, j) && RelabelRow(row, columns).error == KeyError(columns[j].0)
    decreases |columns|
  {
    if |columns| == 0 {
      return;
    }
    var (key, display) := columns[0];
    if key !in row {
      assert FirstMissing(row, columns, 0);
      return;
    }
    var rest := columns[1..];
    var popped := row - {key};
    var next := if display == "" then popped else popped[display := row[key]];
    assert RelabelRow(row, columns) == RelabelRow(next, rest);
    WellFormedTail(columns);
    RelabelRowFailure(next, rest);
    if RelabelRow(next, rest).Failure? {
      var j :| FirstMissing(next, rest, j) && RelabelRow(next, rest).error == KeyError(rest[j].0);
      assert rest[j] == columns[j + 1];
      assert columns[j + 1].0 != key && columns[j + 1].0 != display;
      forall i | 0 <= i < j + 1 ensures columns[i].0 in row {
        if i > 0 {
          assert rest[i - 1] == columns[i];
          assert columns[i].0 != display;
        }
      }
      assert FirstMissing(row, columns, j + 1);
    }
  }

  /** The calculator's label table meets the conditions of `RelabelRowCorrect`. */
  lemma ColumnKeyNamesWellFormed()
    ensures WellFormed(ColumnKeyNames)
  {
    ColumnKeysDistinct();
    ColumnLabelsDistinct();
    ColumnKeysAreNotLabels();
  }

  lemma ColumnKeysDistinct()
    ensures forall i, j :: 0 <= i < j < |ColumnKeyNames| ==> ColumnKeyNames[i].0 != ColumnKeyNames[j].0
  {
  }

  lemma ColumnLabelsDistinct()
    ensures forall i, j :: 0 <= i < j < |ColumnKeyNames| && ColumnKeyNames[i].1 != "" ==>
              ColumnKeyNames[i].1 != ColumnKeyNames[j].1
  {
  }

  /** Market columns are lower-case and labels capitalised, so none is the other. */
  lemma ColumnKeysAreNotLabels()
    ensures forall i, j :: 0 <= i < |ColumnKeyNames| && 0 <= j < |ColumnKeyNames| ==>
              ColumnKeyNames[i].0 != ColumnKeyNames[j].1
  {
    var c := ColumnKeyNames;
    forall i, j | 0 <= i < |c| && 0 <= j < |c| ensures c[i].0 != c[j].1 {
      assert c[j].1 == "" || c[i].0[0] != c[j].1[0];
    }
  }

  /** `get_key` of a listed market column is the label the table pairs it with. */
  lemma GetKeyAt(i: nat)
    requires i < |ColumnKeyNames|
    ensures GetKey(ColumnKeyNames[i].0) == Success(ColumnKeyNames[i].1)
  {
    var c := ColumnKeyNames;
    assert c[i].0 in SourceKeys(c);
    var r := GetKey(c[i].0);
    var j :| 0 <= j < |c| && c[j] == (c[i].0, r.value);
    ColumnKeysDistinct();
    assert j == i;
  }

  /** The eleven columns of a market price record. */
  const MarketColumns: set<string> := {
    "item_id", "city", "quality", "sell_price_min", "sell_price_min_date", "sell_price_max",
    "sell_price_max_date", "buy_price_min", "buy_price_min_date", "buy_price_max", "buy_price_max_date"
  }

  /** The table lists exactly the market's columns. */
  lemma ColumnSources()
    ensures SourceKeys(ColumnKeyNames) == MarketColumns
  {
    var c := ColumnKeyNames;
    assert c[0].0 == "item_id" && c[1].0 == "city" && c[2].0 == "quality";
    assert c[3].0 == "sell_price_min" && c[4].0 == "sell_price_min_date";
    assert c[5].0 == "sell_price_max" && c[6].0 == "sell_price_max_date";
    assert c[7].0 == "buy_price_min" && c[8].0 == "buy_price_min_date";
    assert c[9].0 == "buy_price_max" && c[10].0 == "buy_price_max_date";
    assert MarketColumns <= SourceKeys(c);
  }

  /** The six labels that survive relabelling. */
  lemma ColumnLabels()
    ensures Labels(ColumnKeyNames) == {"Item", "Ciudad", "Orden de Venta (Min)", "Orden de Venta (Max)",
                                       "Orden de Compra (Min)", "Orden de Compra (Max)"}
  {
    var c := ColumnKeyNames;
    var expected := {"Item", "Ciudad", "Orden de Venta (Min)", "Orden de Venta (Max)",
                     "Orden de Compra (Min)", "Orden de Compra (Max)"};
    assert c[0].1 == "Item" && c[1].1 == "Ciudad";
    assert c[3].1 == "Orden de Venta (Min)" && c[5].1 == "Orden de Venta (Max)";
    assert c[7].1 == "Orden de Compra (Min)" && c[9].1 == "Orden de Compra (Max)";
    assert expected <= Labels(c);
    forall k | k in Labels(c) ensures k in expected {
      var i :| 0 <= i < |c| && c[i].1 != "" && c[i].1 == k;
      assert i in {0, 1, 3, 5, 7, 9};
    }
  }

  /** A row carrying exactly the columns the market reports comes out of the
      loop with exactly the six non-empty labels, each holding the value of
      its column; quality and the four timestamps are gone. */
  lemma RelabelMarketRow<V>(row: map<string, V>)
    requires row.Keys == MarketColumns
    ensures RelabelRow(row, ColumnKeyNames).Success?
    ensures var r := RelabelRow(row, ColumnKeyNames).value;
            && r.Keys == {"Item", "Ciudad", "Orden de Venta (Min)", "Orden de Venta (Max)",
                          "Orden de Compra (Min)", "Orden de Compra (Max)"}
            && r["Item"] == row["item_id"]
            && r["Ciudad"] == row["city"]
            && r["Orden de Venta (Min)"] == row["sell_price_min"]
            && r["Orden de Venta (Max)"] == row["sell_price_max"]
            && r["Orden de Compra (Min)"] == row["buy_price_min"]
            && r["Orden de Compra (Max)"] == row["buy_price_max"]
  {
    ColumnSources();
    CompleteRowRelabelled(row);
    ColumnLabels();
    MarketRowValues(RelabelRow(row, ColumnKeyNames).value, row);
  }

  lemma CompleteRowRelabelled<V>(row: map<string, V>)
    requires row.Keys == SourceKeys(ColumnKeyNames)
    ensures RelabelRow(row, ColumnKeyNames).Success?
    ensures var r := RelabelRow(row, ColumnKeyNames).value;
            r.Keys == Labels(ColumnKeyNames) && RelabelledFrom(r, row, ColumnKeyNames)
  {
    ColumnKeyNamesWellFormed();
    RelabelRowCorrect(row, ColumnKeyNames);
  }

  lemma MarketRowValues<V>(r: map<string, V>, row: map<string, V>)
    requires RelabelledFrom(r, row, ColumnKeyNames)
    ensures "Item" in r && "item_id" in row && r["Item"] == row["item_id"]
    ensures "Ciudad" in r && "city" in row && r["Ciudad"] == row["city"]
    ensures "Orden de Venta (Min)" in r && "sell_price_min" in row && r["Orden de Venta (Min)"] == row["sell_price_min"]
    ensures "Orden de Venta (Max)" in r && "sell_price_max" in row && r["Orden de Venta (Max)"] == row["sell_price_max"]
    ensures "Orden de Compra (Min)" in r && "buy_price_min" in row && r["Orden de Compra (Min)"] == row["buy_price_min"]
    ensures "Orden de Compra (Max)" in r && "buy_price_max" in row && r["Orden de Compra (Max)"] == row["buy_price_max"]
  {
    ColumnPairs();
    LabelHoldsPair(r, row, 0, "item_id", "Item");
    LabelHoldsPair(r, row, 1, "city", "Ciudad");
    LabelHoldsPair(r, row, 3, "sell_price_min", "Orden de Venta (Min)");
    LabelHoldsPair(r, row, 5, "sell_price_max", "Orden de Venta (Max)");
    LabelHoldsPair(r, row, 7, "buy_price_min", "Orden de Compra (Min)");
    LabelHoldsPair(r, row, 9, "buy_price_max", "Orden de Compra (Max)");
  }

  /** The pairs of the label table whose labels are not empty. */
  lemma ColumnPairs()
    ensures ColumnKeyNames[0] == ("item_id", "Item") && ColumnKeyNames[1] == ("city", "Ciudad")
    ensures ColumnKeyNames[3] == ("sell_price_min", "Orden de Venta (Min)")
    ensures ColumnKeyNames[5] == ("sell_price_max", "Orden de Venta (Max)")
    ensures ColumnKeyNames[7] == ("buy_price_min", "Orden de Compra (Min)")
    ensures ColumnKeyNames[9] == ("buy_price_max", "Orden de Compra (Max)")
  {
  }

  lemma LabelHoldsPair<V>(r: map<string, V>, row: map<string, V>, i: nat, key: string, display: string)
    requires RelabelledFrom(r, row, ColumnKeyNames)
    requires i < |ColumnKeyNames| && ColumnKeyNames[i] == (key, display) && display != ""
    ensures display in r && key in row && r[display] == row[key]
  {
    LabelHoldsColumn(r, row, ColumnKeyNames, i);
  }

  lemma LabelHoldsColumn<V>(r: map<string, V>, row: map<string, V>, columns: seq<(string, string)>, i: nat)
    requires RelabelledFrom(r, row, columns)
    requires i < |columns| && columns[i].1 != ""
    ensures columns[i].1 in r && columns[i].0 in row && r[columns[i].1] == row[columns[i].0]
  {
  }

  /** The columns read through `get_key` have non-empty labels, so relabelled
      rows carry them: item_id, sell_price_min and buy_price_max for the price
      selectors and the resource cost, city for the price display. */
  lemma SelectorKeysSurvive()
    ensures GetKey("item_id") == Success("Item")
    ensures GetKey("city") == Success("Ciudad")
    ensures GetKey("sell_price_min") == Success("Orden de Venta (Min)")
    ensures GetKey("buy_price_max") == Success("Orden de Compra (Max)")
    ensures {"Item", "Ciudad", "Orden de Venta (Min)", "Orden de Compra (Max)"} <= Labels(ColumnKeyNames)
  {
    GetKeyAt(0);
    GetKeyAt(1);
    GetKeyAt(3);
    GetKeyAt(9);
    ColumnLabels();
  }
}

=== FILE: decimal.dfy ===
/** Python's `str` of an integer, as the identifier builder's `format` uses it,
    together with the parser that undoes it.
 */
module Decimal {
  import opened Results

  predicate IsDigit(c: char) {
    '0' <= c <= '9'
  }

  predicate AllDigits(s: string) {
    forall i :: 0 <= i < |s| ==> IsDigit(s[i])
  }

  function DigitChar(d: nat): (c: char)
    requires d < 10
    ensures IsDigit(c)
    ensures c as int - '0' as int == d
  {
    ('0' as int + d) as char
  }

  /** The decimal numeral of `n`: digits only, and no leading zero. */
  function NatToString(n: nat): (s: string)
    ensures |s| > 0 && AllDigits(s)
    ensures s[0] == '0' <==> n == 0
    decreases n
  {
    if n < 10 then [DigitChar(n)] else NatToString(n / 10) + [DigitChar(n % 10)]
  }

  /** `str(i)` for a Python int: a minus sign before the numeral of `|i|`. */
  function IntToString(i: int): (s: string)
    ensures |s| > 0
    ensures i >= 0 ==> AllDigits(s)
    ensures i < 0 ==> s[0] == '-' && AllDigits(s[1..])
    ensures '_' !in s && '@' !in s
  {
    if i < 0 then "-" + NatToString(-i) else NatToString(i)
  }

  /** The value of a string of digits, most significant first. */
  function DigitsValue(s: string): nat
    requires AllDigits(s)
    decreases |s|
  {
    if |s| == 0 then 0
    else DigitsValue(s[..|s| - 1]) * 10 + (s[|s| - 1] as int - '0' as int)
  }

  function ParseNat(s: string): (r: Option<nat>)
    ensures r.Some? <==> |s| > 0 && AllDigits(s)
  {
    if |s| > 0 && AllDigits(s) then Some(DigitsValue(s)) else None
  }

  function ParseInt(s: string): (r: Option<int>)
    ensures r.Some? && r.value < 0 ==> |s| > 1 && s[0] == '-'
  {
    if |s| > 0 && s[0] == '-' then
      match ParseNat(s[1..])
      case None => None
      case Some(n) => Some(0 - n as int)
    else
      match ParseNat(s)
      case None => None
      case Some(n) => Some(n as int)
  }

  lemma {:induction false} DigitsValueOfNatToString(n: nat)
    ensures DigitsValue(NatToString(n)) == n
    decreases n
  {
    var s := NatToString(n);
    if n >= 10 {
      var p := NatToString(n / 10);
      assert s == p + [DigitChar(n % 10)];
      assert s[..|s| - 1] == p;
      DigitsValueOfNatToString(n / 10);
    }
  }

  /** Parsing a numeral gives back the number it was printed from. */
  lemma ParseNatToString(n: nat)
    ensures ParseNat(NatToString(n)) == Some(n)
  {
    DigitsValueOfNatToString(n);
  }

  /** Parsing `str(i)` gives back `i`, negative numbers included. */
  lemma ParseIntToString(i: int)
    ensures ParseInt(IntToString(i)) == Some(i)
  {
    if i < 0 {
      var s := IntToString(i);
      assert s[1..] == NatToString(-i);
      ParseNatToString(-i);
    } else {
      ParseNatToString(i);
    }
  }

  /** Distinct integers print differently. */
  lemma IntToStringInjective(i: int, j: int)
    requires IntToString(i) == IntToString(j)
    ensures i == j
  {
    ParseIntToString(i);
    ParseIntToString(j);
  }
}

=== FILE: item_ids.dfy ===
/** Market item identifiers: `T{tier}_{ITEM}`, followed by
    `_LEVEL{e}@{e}` when the enchantment `e` is positive.

    `RawResource` is the builder the calculator calls for the raw, crafted and
    product identifiers; `ParseId` is its inverse on identifiers whose base
    item name holds no underscore (the five refined items and their raw
    resources are, see `Refining.ItemNamesPlain`).
 */
module ItemIds {
  import opened Results
  import opened Decimal

  /** What an identifier encodes. An unenchanted identifier has enchantment 0. */
  datatype ItemKey = ItemKey(tier: int, item: string, enchantment: nat)

  /** The enchantment an identifier records: anything not above zero leaves no suffix. */
  function EffectiveEnchantment(enchantment: int): nat {
    if enchantment > 0 then enchantment else 0
  }

  /** `T{tier}_{item}`: the identifier with no enchantment suffix. */
  function Unenchanted(tier: int, item: string): string {
    "T" + IntToString(tier) + "_" + item
  }

  /** `_LEVEL{e}@{e}`: the enchantment suffix, the level printed twice. */
  function LevelSuffix(enchantment: int): string {
    "_LEVEL" + IntToString(enchantment) + "@" + IntToString(enchantment)
  }

  /** Item identifier for (tier, base item, enchantment), as the market names it. */
  function RawResource(tier: int, item: string, enchantment: int): (id: string)
    ensures |id| >= 2 + |item| && id[0] == 'T'
  {
    var r := Unenchanted(tier, item);
    if enchantment > 0 then r + LevelSuffix(enchantment) else r
  }

  /** `s` split around the first `c`: what precedes it and what follows it. */
  function SplitAt(s: string, c: char): (r: Option<(string, string)>)
    ensures r.None? <==> c !in s
    ensures r.Some? ==> c !in r.value.0 && s == r.value.0 + [c] + r.value.1
    decreases |s|
  {
    if |s| == 0 then None
    else if s[0] == c then Some(([], s[1..]))
    else
      match SplitAt(s[1..], c)
      case None => None
      case Some((before, after)) => Some(([s[0]] + before, after))
  }

  /** The split of `a + [c] + b` at its first `c` is `(a, b)` when `a` has no `c`. */
  lemma {:induction false} SplitAtFirst(a: string, c: char, b: string)
    requires c !in a
    ensures SplitAt(a + [c] + b, c) == Some((a, b))
    decreases |a|
  {
    var s := a + [c] + b;
    if |a| > 0 {
      assert s[0] == a[0] && s[1..] == a[1..] + [c] + b;
      SplitAtFirst(a[1..], c, b);
      assert [a[0]] + a[1..] == a;
    }
  }

  /** Reads `LEVEL{e}@{e}` (what follows the item's underscore) with `e` positive and canonical. */
  function ParseLevel(s: string): Option<nat> {
    if |s| < 5 || s[..5] != "LEVEL" then None
    else
      match SplitAt(s[5..], '@')
      case None => None
      case Some((first, second)) =>
        if first != second then None
        else
          match ParseNat(first)
          case None => None
          case Some(e) => if e > 0 && NatToString(e) == first then Some(e) else None
  }

  /** Reads a tier numeral, accepting only the form `str` prints. */
  function ParseTier(s: string): Option<int> {
    match ParseInt(s)
    case None => None
    case Some(t) => if IntToString(t) == s then Some(t) else None
  }

  /** Reads what follows `T{tier}_`: the item name and the enchantment its suffix records. */
  function ParseItemPart(s: string): Option<(string, nat)> {
    match SplitAt(s, '_')
    case None => Some((s, 0))
    case Some((item, suffix)) =>
      match ParseLevel(suffix)
      case None => None
      case Some(e) => Some((item, e))
  }

  /** Decodes an identifier; `None` for anything `RawResource` cannot produce
      from an underscore-free item name. */
  function ParseId(s: string): Option<ItemKey> {
    if |s| == 0 || s[0] != 'T' then None
    else
      match SplitAt(s[1..], '_')
      case None => None
      case Some((tierText, rest)) =>
        match ParseTier(tierText)
        case None => None
        case Some(t) =>
          match ParseItemPart(rest)
          case None => None
          case Some((item, e)) => Some(ItemKey(t, item, e))
  }

  /** The identifier is the unenchanted one, `T{tier}_{item}`, followed by
      nothing when the enchantment is not positive, and otherwise by `_LEVEL`,
      a numeral, `@` and the same numeral again, that numeral reading as the
      enchantment. */
  lemma RawResourceLayout(tier: int, item: string, enchantment: int)
    ensures var base := "T" + IntToString(tier) + "_" + item;
            var id := RawResource(tier, item, enchantment);
            && id[..|base|] == base
            && (enchantment <= 0 <==> |id| == |base|)
            && (enchantment > 0 ==>
                  exists d :: && id[|base|..] == "_LEVEL" + d + "@" + d
                               && ParseNat(d) == Some(enchantment)
                               && d[0] != '0')
  {
    var base := "T" + IntToString(tier) + "_" + item;
    var id := RawResource(tier, item, enchantment);
    if enchantment > 0 {
      var d := IntToString(enchantment);
      var tail := "_LEVEL" + d + "@" + d;
      assert id == base + tail;
      assert id[..|base|] == base;
      assert id[|base|..] == tail;
      ParseNatToString(enchantment);
    } else {
      assert id == base;
    }
  }

  /** Appending to an identifier is appending to its item part. */
  lemma UnenchantedAppend(tier: int, item: string, x: string)
    ensures Unenchanted(tier, item) + x == Unenchanted(tier, item + x)
  {
  }

  /** The suffix is an underscore followed by `LEVEL{e}@{e}`. */
  lemma LevelSuffixSplit(enchantment: int)
    ensures var d := IntToString(enchantment);
            LevelSuffix(enchantment) == ['_'] + ("LEVEL" + d + "@" + d)
  {
  }

  /** The tier prefix `T{tier}_` of an identifier is read back exactly. */
  lemma ParseTierPrefix(tier: int, rest: string)
    ensures var s := Unenchanted(tier, rest);
            && s[0] == 'T'
            && SplitAt(s[1..], '_') == Some((IntToString(tier), rest))
            && ParseTier(IntToString(tier)) == Some(tier)
  {
    var t := IntToString(tier);
    var s := Unenchanted(tier, rest);
    assert s[1..] == t + ['_'] + rest;
    SplitAtFirst(t, '_', rest);
    ParseIntToString(tier);
  }

  /** The enchantment suffix, without its leading underscore, is read back exactly. */
  lemma ParseLevelSuffix(enchantment: nat)
    requires enchantment > 0
    ensures var d := IntToString(enchantment);
            ParseLevel("LEVEL" + d + "@" + d) == Some(enchantment)
  {
    var d := IntToString(enchantment);
    var level := "LEVEL" + d + "@" + d;
    assert level[..5] == "LEVEL";
    assert level[5..] == d + ['@'] + d;
    SplitAtFirst(d, '@', d);
    ParseNatToString(enchantment);
  }

  /** The item part of a built identifier is read back exactly. */
  lemma ParseItemPartOf(item: string, enchantment: int)
    requires '_' !in item
    ensures ParseItemPart(if enchantment > 0 then item + LevelSuffix(enchantment) else item)
            == Some((item, EffectiveEnchantment(enchantment)))
  {
    if enchantment > 0 {
      var d := IntToString(enchantment);
      var level := "LEVEL" + d + "@" + d;
      LevelSuffixSplit(enchantment);
      assert item + LevelSuffix(enchantment) == item + ['_'] + level;
      SplitAtFirst(item, '_', level);
      ParseLevelSuffix(enchantment);
    }
  }

  /** Decoding a built identifier recovers the tier, the item and the effective enchantment. */
  lemma ParseRawResource(tier: int, item: string, enchantment: int)
    requires '_' !in item
    ensures ParseId(RawResource(tier, item, enchantment))
            == Some(ItemKey(tier, item, EffectiveEnchantment(enchantment)))
  {
    var rest := if enchantment > 0 then item + LevelSuffix(enchantment) else item;
    if enchantment > 0 {
      UnenchantedAppend(tier, item, LevelSuffix(enchantment));
    }
    assert RawResource(tier, item, enchantment) == Unenchanted(tier, rest);
    ParseTierPrefix(tier, rest);
    ParseItemPartOf(item, enchantment);
  }

  /** Every suffix `ParseLevel` accepts is the one printed from its value. */
  lemma LevelSuffixOfParse(x: string)
    requires ParseLevel(x).Some?
    ensures ['_'] + x == LevelSuffix(ParseLevel(x).value)
  {
    var e := ParseLevel(x).value;
    var (first, second) := SplitAt(x[5..], '@').value;
    LevelOfSplit(x, first, second);
    SplitJoin(x[5..], '@', first, second);
    assert x == "LEVEL" + first + "@" + first by {
      assert x == x[..5] + x[5..];
    }
    LevelSuffixSplit(e);
  }

  /** What `ParseLevel` checks of the two numerals around the `@`. */
  lemma LevelOfSplit(x: string, first: string, second: string)
    requires ParseLevel(x).Some?
    requires SplitAt(x[5..], '@') == Some((first, second))
    ensures |x| >= 5 && x[..5] == "LEVEL"
    ensures first == second && IntToString(ParseLevel(x).value) == first
  {
  }

  /** Every item part `ParseItemPart` accepts is an underscore-free item
      followed by the suffix its enchantment prints. */
  lemma ItemPartOfParse(x: string)
    requires ParseItemPart(x).Some?
    ensures var (item, e) := ParseItemPart(x).value;
            && '_' !in item
            && x == if e > 0 then item + LevelSuffix(e) else item
  {
    match SplitAt(x, '_')
    case None =>
    case Some((item, suffix)) =>
      ItemPartOfSplit(x, item, suffix);
      LevelSuffixOfParse(suffix);
      SplitJoin(x, '_', item, suffix);
  }

  lemma ItemPartOfSplit(x: string, item: string, suffix: string)
    requires SplitAt(x, '_') == Some((item, suffix))
    requires ParseLevel(suffix).Some?
    ensures ParseItemPart(x) == Some((item, ParseLevel(suffix).value))
  {
  }

  /** A split puts the string back together around its separator. */
  lemma SplitJoin(x: string, c: char, before: string, after: string)
    requires SplitAt(x, c) == Some((before, after))
    ensures c !in before && x == before + ([c] + after)
  {
    assert before + [c] + after == before + ([c] + after);
  }

  /** What `ParseId` checks of the tier numeral and the item part. */
  lemma IdOfSplit(s: string, tierText: string, rest: string)
    requires ParseId(s).Some?
    requires SplitAt(s[1..], '_') == Some((tierText, rest))
    ensures |s| > 0 && s[0] == 'T'
    ensures tierText == IntToString(ParseId(s).value.tier)
    ensures ParseItemPart(rest) == Some((ParseId(s).value.item, ParseId(s).value.enchantment))
  {
  }

  /** Every identifier `ParseId` accepts is the one `RawResource` builds from its decoding. */
  lemma RawResourceOfParse(s: string)
    requires ParseId(s).Some?
    ensures var k := ParseId(s).value;
            '_' !in k.item && RawResource(k.tier, k.item, k.enchantment) == s
  {
    var k := ParseId(s).value;
    var (tierText, rest) := SplitAt(s[1..], '_').value;
    IdOfSplit(s, tierText, rest);
    SplitJoin(s[1..], '_', tierText, rest);
    TierJoin(s, k.tier, rest);
    ItemPartOfParse(rest);
    RawResourceOfParts(k.tier, k.item, k.enchantment, rest);
  }

  /** `T`, the tier numeral, `_` and the rest, put back together. */
  lemma TierJoin(s: string, tier: int, rest: string)
    requires |s| > 0 && s[0] == 'T' && s[1..] == IntToString(tier) + (['_'] + rest)
    ensures s == Unenchanted(tier, rest)
  {
    var t := IntToString(tier);
    calc {
      Unenchanted(tier, rest);
      "T" + t + "_" + rest;
      ['T'] + (t + (['_'] + rest));
      [s[0]] + s[1..];
      s;
    }
  }

  /** The builder's output, read as the unenchanted identifier of the item part. */
  lemma RawResourceOfParts(tier: int, item: string, enchantment: nat, rest: string)
    requires rest == if enchantment > 0 then item + LevelSuffix(enchantment) else item
    ensures RawResource(tier, item, enchantment) == Unenchanted(tier, rest)
  {
    if enchantment > 0 {
      UnenchantedAppend(tier, item, LevelSuffix(enchantment));
    }
  }

  /** Identifiers of underscore-free items name their (tier, item, enchantment) uniquely. */
  lemma RawResourceInjective(t1: int, i1: string, e1: int, t2: int, i2: string, e2: int)
    requires '_' !in i1 && '_' !in i2
    requires RawResource(t1, i1, e1) == RawResource(t2, i2, e2)
    ensures t1 == t2 && i1 == i2 && EffectiveEnchantment(e1) == EffectiveEnchantment(e2)
  {
    ParseRawResource(t1, i1, e1);
    ParseRawResource(t2, i2, e2);
  }
}

=== FILE: prices.dfy ===
/** Price selection over the fetched (relabelled) rows.

    `get_resource_price` is `min` over the rows of one item by buy-order
    maximum; `get_product_price` is `max` over the rows of one item, once by
    sell-order minimum and once by buy-order maximum. Python's `min`/`max`
    walk the rows left to right and replace the running choice only on a
    strictly better key, so on a tie the earliest row wins; over no rows at
    all they raise.
 */
module Prices {
  import opened Results

  /** One relabelled market row: the item, the city and the four order prices.
      Quality and the timestamps are dropped by relabelling and not kept. */
  datatype PriceRecord = PriceRecord(
    itemId: string,
    city: string,
    sellPriceMin: int,
    sellPriceMax: int,
    buyPriceMin: int,
    buyPriceMax: int)

  /** The price column an `itemgetter` key reads. */
  datatype PriceField = SellPriceMin | SellPriceMax | BuyPriceMin | BuyPriceMax

  /** Which extreme a selection wants: `min` or `max`. */
  datatype Extreme = Least | Greatest

  function Price(p: PriceRecord, field: PriceField): int {
    match field
    case SellPriceMin => p.sellPriceMin
    case SellPriceMax => p.sellPriceMax
    case BuyPriceMin => p.buyPriceMin
    case BuyPriceMax => p.buyPriceMax
  }

  /** Key `x` strictly beats key `y`: the only comparison `min`/`max` make. */
  predicate Beats(x: int, y: int, extreme: Extreme) {
    match extreme
    case Least => x < y
    case Greatest => x > y
  }

  /** `filter(lambda p: p[item] == itemId, prices)`, kept in order. */
  function Matching(prices: seq<PriceRecord>, itemId: string): (r: seq<PriceRecord>)
    ensures |r| <= |prices|
    ensures forall p :: p in r ==> p in prices && p.itemId == itemId
    ensures forall p :: p in prices && p.itemId == itemId ==> p in r
    decreases |prices|
  {
    if |prices| == 0 then []
    else
      var init := prices[..|prices| - 1];
      var last := prices[|prices| - 1];
      assert prices == init + [last];
      Matching(init, itemId) + (if last.itemId == itemId then [last] else [])
  }

  /** Filtering a concatenation filters each part and keeps them in order. */
  lemma {:induction false} MatchingAppend(a: seq<PriceRecord>, b: seq<PriceRecord>, itemId: string)
    ensures Matching(a + b, itemId) == Matching(a, itemId) + Matching(b, itemId)
    decreases |b|
  {
    if |b| == 0 {
      assert a + b == a;
    } else {
      var init := b[..|b| - 1];
      var last := b[|b| - 1];
      assert b == init + [last];
      assert a + b == (a + init) + [last];
      assert (a + b)[..|a + b| - 1] == a + init;
      MatchingAppend(a, init, itemId);
    }
  }

  /** A single row passes the filter exactly when it has the item. */
  lemma MatchingOne(p: PriceRecord, itemId: string)
    ensures Matching([p], itemId) == if p.itemId == itemId then [p] else []
  {
    assert [p][..0] == [];
  }

  /** The position `min`/`max` settles on in a non-empty sequence: no element
      beats it, and it beats every element before it. */
  function BestIndex(s: seq<PriceRecord>, field: PriceField, extreme: Extreme): (i: nat)
    requires |s| > 0
    ensures i < |s|
    ensures forall j :: 0 <= j < |s| ==> !Beats(Price(s[j], field), Price(s[i], field), extreme)
    ensures forall j :: 0 <= j < i ==> Beats(Price(s[i], field), Price(s[j], field), extreme)
    decreases |s|
  {
    if |s| == 1 then 0
    else
      var k := BestIndex(s[..|s| - 1], field, extreme);
      if Beats(Price(s[|s| - 1], field), Price(s[k], field), extreme) then |s| - 1 else k
  }

  /** `min(filter(...), key=...)` or `max(...)`: `EmptySequence` when no row
      has the item. */
  function SelectBest(prices: seq<PriceRecord>, itemId: string, field: PriceField, extreme: Extreme)
    : Result<PriceRecord>
  {
    var candidates := Matching(prices, itemId);
    if |candidates| == 0 then Failure(EmptySequence(itemId))
    else Success(candidates[BestIndex(candidates, field, extreme)])
  }

  /** Position `i` of `prices` holds the row a first-wins selection must return:
      it has the item, no row of the item beats it, and it beats every earlier
      row of the item. */
  ghost predicate IsFirstBest(prices: seq<PriceRecord>, itemId: string, field: PriceField, extreme: Extreme, i: int) {
    && 0 <= i < |prices|
    && prices[i].itemId == itemId
    && (forall j :: 0 <= j < |prices| && prices[j].itemId == itemId ==>
          !Beats(Price(prices[j], field), Price(prices[i], field), extreme))
    && (forall j :: 0 <= j < i && prices[j].itemId == itemId ==>
          Beats(Price(prices[i], field), Price(prices[j], field), extreme))
  }

  ghost predicate HasItem(prices: seq<PriceRecord>, itemId: string) {
    exists j :: 0 <= j < |prices| && prices[j].itemId == itemId
  }

  lemma BeatsTransitive(x: int, y: int, z: int, extreme: Extreme)
    requires Beats(x, y, extreme) && !Beats(z, y, extreme)
    ensures Beats(x, z, extreme)
  {
  }

  /** At most one position is the first best one. */
  lemma FirstBestUnique(prices: seq<PriceRecord>, itemId: string, field: PriceField, extreme: Extreme, i: int, j: int)
    requires IsFirstBest(prices, itemId, field, extreme, i)
    requires IsFirstBest(prices, itemId, field, extreme, j)
    ensures i == j
  {
  }

  lemma MatchingEmpty(prices: seq<PriceRecord>, itemId: string)
    ensures |Matching(prices, itemId)| == 0 <==> !HasItem(prices, itemId)
  {
    if HasItem(prices, itemId) {
      var j :| 0 <= j < |prices| && prices[j].itemId == itemId;
      assert prices[j] in Matching(prices, itemId);
    }
  }

  /** A row of another item appended after the list leaves the first best position unchanged. */
  lemma FirstBestSkipsOtherItem(init: seq<PriceRecord>, last: PriceRecord, itemId: string, field: PriceField, extreme: Extreme, i: int)
    requires IsFirstBest(init, itemId, field, extreme, i)
    requires last.itemId != itemId
    ensures IsFirstBest(init + [last], itemId, field, extreme, i)
  {
    var prices := init + [last];
    forall j | 0 <= j < |init| ensures prices[j] == init[j] {
    }
  }

  /** The first row of an item is its first best position when it is also its only row so far. */
  lemma FirstBestFirstRow(init: seq<PriceRecord>, last: PriceRecord, itemId: string, field: PriceField, extreme: Extreme)
    requires !HasItem(init, itemId)
    requires last.itemId == itemId
    ensures IsFirstBest(init + [last], itemId, field, extreme, |init|)
  {
    var prices := init + [last];
    forall j | 0 <= j < |init| ensures prices[j] == init[j] {
    }
  }

  /** An appended row that strictly beats the previous choice becomes the choice. */
  lemma FirstBestTakesBetter(init: seq<PriceRecord>, last: PriceRecord, itemId: string, field: PriceField, extreme: Extreme, i: int)
    requires IsFirstBest(init, itemId, field, extreme, i)
    requires last.itemId == itemId
    requires Beats(Price(last, field), Price(init[i], field), extreme)
    ensures IsFirstBest(init + [last], itemId, field, extreme, |init|)
  {
    var prices := init + [last];
    forall j | 0 <= j < |init| && prices[j].itemId == itemId
      ensures Beats(Price(last, field), Price(prices[j], field), extreme)
    {
      assert prices[j] == init[j];
      BeatsTransitive(Price(last, field), Price(init[i], field), Price(prices[j], field), extreme);
    }
  }

  /** An appended row that does not strictly beat the previous choice leaves it in place. */
  lemma FirstBestKeepsEarlier(init: seq<PriceRecord>, last: PriceRecord, itemId: string, field: PriceField, extreme: Extreme, i: int)
    requires IsFirstBest(init, itemId, field, extreme, i)
    requires !Beats(Price(last, field), Price(init[i], field), extreme)
    ensures IsFirstBest(init + [last], itemId, field, extreme, i)
  {
    var prices := init + [last];
    forall j | 0 <= j < |init| ensures prices[j] == init[j] {
    }
  }

  /** Reducing a sequence with one more element compares that element with the earlier choice. */
  lemma BestIndexAppend(m0: seq<PriceRecord>, last: PriceRecord, field: PriceField, extreme: Extreme)
    requires |m0| > 0
    ensures var k := BestIndex(m0, field, extreme);
            BestIndex(m0 + [last], field, extreme) ==
              if Beats(Price(last, field), Price(m0[k], field), extreme) then |m0| else k
  {
    assert (m0 + [last])[..|m0|] == m0;
  }

  /** Reducing the filtered rows left to right lands on the first best
      position of the unfiltered list. */
  lemma {:induction false} ReductionIsFirstBest(prices: seq<PriceRecord>, itemId: string, field: PriceField, extreme: Extreme)
    requires |Matching(prices, itemId)| > 0
    ensures var m := Matching(prices, itemId);
            exists i :: IsFirstBest(prices, itemId, field, extreme, i) && prices[i] == m[BestIndex(m, field, extreme)]
    decreases |prices|
  {
    var n := |prices| - 1;
    var init := prices[..n];
    var last := prices[n];
    var m0 := Matching(init, itemId);
    var m := Matching(prices, itemId);
    assert prices == init + [last];
    if last.itemId != itemId {
      assert m == m0;
      ReductionIsFirstBest(init, itemId, field, extreme);
      var i :| IsFirstBest(init, itemId, field, extreme, i) && init[i] == m0[BestIndex(m0, field, extreme)];
      FirstBestSkipsOtherItem(init, last, itemId, field, extreme, i);
      assert prices[i] == init[i];
    } else if |m0| == 0 {
      assert m == [last];
      MatchingEmpty(init, itemId);
      FirstBestFirstRow(init, last, itemId, field, extreme);
    } else {
      assert m == m0 + [last];
      ReductionIsFirstBest(init, itemId, field, extreme);
      var k := BestIndex(m0, field, extreme);
      var i :| IsFirstBest(init, itemId, field, extreme, i) && init[i] == m0[k];
      BestIndexAppend(m0, last, field, extreme);
      if Beats(Price(last, field), Price(m0[k], field), extreme) {
        FirstBestTakesBetter(init, last, itemId, field, extreme, i);
        assert m[|m0|] == prices[n];
      } else {
        FirstBestKeepsEarlier(init, last, itemId, field, extreme, i);
        assert m[k] == m0[k] == prices[i];
      }
    }
  }

  /** Filtering and then reducing left to right returns exactly the row at
      the first best position of the unfiltered list, and fails exactly when
      no row has the item. */
  lemma SelectBestIsFirstBest(prices: seq<PriceRecord>, itemId: string, field: PriceField, extreme: Extreme)
    ensures SelectBest(prices, itemId, field, extreme).Failure? <==> !HasItem(prices, itemId)
    ensures SelectBest(prices, itemId, field, extreme).Failure? ==>
              SelectBest(prices, itemId, field, extreme).error == EmptySequence(itemId)
    ensures SelectBest(prices, itemId, field, extreme).Success? ==>
              exists i :: IsFirstBest(prices, itemId, field, extreme, i)
                          && prices[i] == SelectBest(prices, itemId, field, extreme).value
  {
    MatchingEmpty(prices, itemId);
    if HasItem(prices, itemId) {
      ReductionIsFirstBest(prices, itemId, field, extreme);
    }
  }

  /** `get_resource_price`: the cheapest row of `resource` by buy-order maximum,
      the earliest on ties; `EmptySequence` when no row has the item. */
  function GetResourcePrice(resource: string, prices: seq<PriceRecord>): (r: Result<PriceRecord>)
    ensures r.Failure? <==> !HasItem(prices, resource)
    ensures r.Failure? ==> r.error == EmptySequence(resource)
    ensures r.Success? ==> exists i :: IsFirstBest(prices, resource, BuyPriceMax, Least, i) && prices[i] == r.value
  {
    SelectBestIsFirstBest(prices, resource, BuyPriceMax, Least);
    SelectBest(prices, resource, BuyPriceMax, Least)
  }

  /** `get_product_price`: the row of `product` with the highest sell-order
      minimum and, chosen independently, the row with the highest buy-order
      maximum, each the earliest on ties; `EmptySequence` when no row has the
      item. */
  function GetProductPrice(product: string, prices: seq<PriceRecord>): (r: Result<(PriceRecord, PriceRecord)>)
    ensures r.Failure? <==> !HasItem(prices, product)
    ensures r.Failure? ==> r.error == EmptySequence(product)
    ensures r.Success? ==> exists i :: IsFirstBest(prices, product, SellPriceMin, Greatest, i) && prices[i] == r.value.0
    ensures r.Success? ==> exists i :: IsFirstBest(prices, product, BuyPriceMax, Greatest, i) && prices[i] == r.value.1
  {
    SelectBestIsFirstBest(prices, product, SellPriceMin, Greatest);
    SelectBestIsFirstBest(prices, product, BuyPriceMax, Greatest);
    match SelectBest(prices, product, SellPriceMin, Greatest)
    case Failure(e) => Failure(e)
    case Success(sellOrder) =>
      match SelectBest(prices, product, BuyPriceMax, Greatest)
      case Failure(e) => Failure(e)
      case Success(buyOrder) => Success((sellOrder, buyOrder))
  }

  /** When exactly one row carries the item, both selectors return that row. */
  lemma SingleRowSelected(prices: seq<PriceRecord>, itemId: string, i: nat)
    requires i < |prices| && prices[i].itemId == itemId
    requires forall j :: 0 <= j < |prices| && j != i ==> prices[j].itemId != itemId
    ensures GetResourcePrice(itemId, prices) == Success(prices[i])
    ensures GetProductPrice(itemId, prices) == Success((prices[i], prices[i]))
  {
    var r := GetResourcePrice(itemId, prices);
    var a :| IsFirstBest(prices, itemId, BuyPriceMax, Least, a) && prices[a] == r.value;
    var p := GetProductPrice(itemId, prices);
    var b :| IsFirstBest(prices, itemId, SellPriceMin, Greatest, b) && prices[b] == p.value.0;
    var c :| IsFirstBest(prices, itemId, BuyPriceMax, Greatest, c) && prices[c] == p.value.1;
  }

  /** The two product choices are independent: with rows A (sell 100, buy 90)
      and B (sell 80, buy 120), the sell order comes from A and the buy order from B. */
  lemma IndependentProductChoice()
    ensures var a := PriceRecord("T5_PLANKS", "A", 100, 0, 0, 90);
            var b := PriceRecord("T5_PLANKS", "B", 80, 0, 0, 120);
            GetProductPrice("T5_PLANKS", [a, b]) == Success((a, b))
  {
    var a := PriceRecord("T5_PLANKS", "A", 100, 0, 0, 90);
    var b := PriceRecord("T5_PLANKS", "B", 80, 0, 0, 120);
    var prices := [a, b];
    var p := GetProductPrice("T5_PLANKS", prices);
    assert HasItem(prices, "T5_PLANKS") by {
      assert prices[0].itemId == "T5_PLANKS";
    }
    var s :| IsFirstBest(prices, "T5_PLANKS", SellPriceMin, Greatest, s) && prices[s] == p.value.0;
    var t :| IsFirstBest(prices, "T5_PLANKS", BuyPriceMax, Greatest, t) && prices[t] == p.value.1;
  }

  /** Equal prices resolve to the earlier row: with two rows of the same
      buy-order maximum, the resource selection returns the first. */
  lemma TieGoesToEarliest(first: PriceRecord, second: PriceRecord)
    requires first.itemId == second.itemId
    requires first.buyPriceMax == second.buyPriceMax
    ensures GetResourcePrice(first.itemId, [first, second]) == Success(first)
  {
    var prices := [first, second];
    var r := GetResourcePrice(first.itemId, prices);
    assert prices[0].itemId == first.itemId;
    var i :| IsFirstBest(prices, first.itemId, BuyPriceMax, Least, i) && prices[i] == r.value;
  }
}

=== FILE: refining.dfy ===
/** The calculation behind the refining page: the three identifiers it asks
    the market for, the two lookup tables, the resource cost, and the four
    profit figures.

    The HTTP fetch and the editable price grid are not modelled: the rows they
    produce are the `prices` parameter of `Evaluate`. The profit formulas use
    Python floats in the source; here they are exact `real` arithmetic.
 */
module Refining {
  import opened Results
  import opened Decimal
  import opened ItemIds
  import opened Prices

  /** Raw units one refine consumes, indexed by tier. */
  const TierRawRequirements: seq<int> := [0, 0, 1, 2, 2, 3, 4, 5, 5]

  /** Item value, indexed by tier + enchantment - 1. */
  const TierItemValue: seq<int> := [0, 0, 0, 16, 32, 64, 128, 256, 512, 1024, 2048]

  /** The raw resource each refined item is made from. */
  const PreviousRawResource: map<string, string> := map[
    "PLANKS" := "WOOD",
    "STONEBLOCK" := "STONE",
    "METALBAR" := "ORE",
    "LEATHER" := "HIDE",
    "CLOTH" := "FIBER"
  ]


  /** Python's `s[i]` on a list: negative positions count from the end, and
      anything outside `-|s| .. |s|-1` raises `IndexError`. */
  function PyIndex<T>(s: seq<T>, i: int): (r: Result<T>)
    ensures r.Success? <==> -|s| <= i < |s|
    ensures r.Failure? ==> r.error == IndexError(i)
    ensures 0 <= i < |s| ==> r == Success(s[i])
    ensures -|s| <= i < 0 ==> r == Success(s[|s| + i])
    ensures r.Success? ==> r.value in s
  {
    if 0 <= i < |s| then Success(s[i])
    else if -|s| <= i < 0 then Success(s[|s| + i])
    else Failure(IndexError(i))
  }

  function Pow2(n: nat): (p: nat)
    ensures p >= 1
  {
    if n == 0 then 1 else 2 * Pow2(n - 1)
  }

  /** `TIER_ITEM_VALUE[tier + enchantment - 1]`. On the form it never wraps
      round to the end of the table: it is 16 at 4.0 and doubles with each
      further tier or enchantment level. */
  function ItemValue(tier: int, enchantment: int): (r: Result<int>)
    ensures r.Success? <==> -11 <= tier + enchantment - 1 < 11
    ensures 4 <= tier <= 8 && 0 <= enchantment <= 3 ==>
              r == Success(16 * Pow2(tier + enchantment - 4))
  {
    ItemValueDoubles(tier + enchantment - 1);
    PyIndex(TierItemValue, tier + enchantment - 1)
  }

  /** From position 3 on, the item-value table is 16 doubled once per position. */
  lemma ItemValueDoubles(k: int)
    ensures 3 <= k <= 10 ==> TierItemValue[k] == 16 * Pow2(k - 3)
  {
    if 3 <= k <= 10 {
      assert k in {3, 4, 5, 6, 7, 8, 9, 10};
      assert Pow2(7) == 128;
    }
  }

  /** `TIER_RAW_REQUIREMENTS[tier]`: between 2 and 5 raw units on the form. */
  function RawRequirement(tier: int): (r: Result<int>)
    ensures r.Success? <==> -9 <= tier < 9
    ensures r.Success? ==> 0 <= r.value <= 5
    ensures 4 <= tier <= 8 ==> r.Success? && 2 <= r.value <= 5
  {
    PyIndex(TierRawRequirements, tier)
  }

  /** A higher tier on the form never needs fewer raw units. */
  lemma RawRequirementMonotone(t1: int, t2: int)
    requires 4 <= t1 <= t2 <= 8
    ensures RawRequirement(t1).value <= RawRequirement(t2).value
  {
  }

  /** `resource_cost`: the raw resource's buy-order maximum times the tier's
      raw requirement, plus the crafted resource's buy-order maximum. */
  function ResourceCost(tier: int, raw: PriceRecord, crafted: PriceRecord): (r: Result<int>)
    ensures r.Success? <==> RawRequirement(tier).Success?
    ensures r.Failure? ==> r.error == IndexError(tier)
  {
    match RawRequirement(tier)
    case Failure(e) => Failure(e)
    case Success(q) => Success(raw.buyPriceMax * q + crafted.buyPriceMax)
  }

  /** On the form, the resource cost is never negative for non-negative
      prices, and never falls when either buy price rises. */
  lemma ResourceCostMonotone(tier: int, raw: PriceRecord, crafted: PriceRecord, raw': PriceRecord, crafted': PriceRecord)
    requires 4 <= tier <= 8
    requires raw.buyPriceMax >= 0 && crafted.buyPriceMax >= 0
    requires raw.buyPriceMax <= raw'.buyPriceMax && crafted.buyPriceMax <= crafted'.buyPriceMax
    ensures ResourceCost(tier, raw, crafted).Success?
    ensures 0 <= ResourceCost(tier, raw, crafted).value <= ResourceCost(tier, raw', crafted').value
    ensures ResourceCost(tier, raw, crafted).value >= 2 * raw.buyPriceMax + crafted.buyPriceMax
  {
    var q := RawRequirement(tier).value;
    assert raw.buyPriceMax * q <= raw'.buyPriceMax * q;
    assert raw.buyPriceMax * q >= raw.buyPriceMax * 2;
  }

  /** Non-negative buy prices give a non-negative resource cost at any tier the table accepts. */
  lemma ResourceCostNonNegative(tier: int, raw: PriceRecord, crafted: PriceRecord)
    requires raw.buyPriceMax >= 0 && crafted.buyPriceMax >= 0
    ensures ResourceCost(tier, raw, crafted).Success? ==> ResourceCost(tier, raw, crafted).value >= 0
  {
    if RawRequirement(tier).Success? {
      var q := RawRequirement(tier).value;
      assert raw.buyPriceMax * q >= 0;
    }
  }

  /** `nutrition_cost`, with the float constant 0.1125 taken exactly. */
  function NutritionCost(itemValue: int): real {
    itemValue as real * 0.1125
  }

  /** `fee_per_unit`: the market fee percentage of the nutrition cost. */
  function FeePerUnit(fee: int, nutritionCost: real): real {
    (fee as real / 100.0) * nutritionCost
  }

  /** One of the four profit figures, for one order price and one return rate. */
  function Profit(orderPrice: int, resourceCost: int, feePerUnit: real, returnRate: real, units: int): real {
    ((orderPrice as real - resourceCost as real - feePerUnit) + (resourceCost as real / 100.0 * returnRate)) * units as real
  }

  /** With no return and a zero market fee, profit is the margin over the
      resource cost per unit, whatever the item value. */
  lemma ProfitWithoutReturnOrFee(orderPrice: int, resourceCost: int, itemValue: int, units: int)
    ensures Profit(orderPrice, resourceCost, FeePerUnit(0, NutritionCost(itemValue)), 0.0, units)
            == ((orderPrice - resourceCost) * units) as real
  {
  }

  /** A higher return rate (focus) never lowers the profit when the resource
      cost is not negative and at least one unit is made. */
  lemma {:induction false} HigherReturnRateNeverLowersProfit(orderPrice: int, resourceCost: int, feePerUnit: real, rate: real, rate': real, units: int)
    requires resourceCost >= 0 && units >= 1
    requires rate <= rate'
    ensures Profit(orderPrice, resourceCost, feePerUnit, rate, units) <= Profit(orderPrice, resourceCost, feePerUnit, rate', units)
  {
    var base := orderPrice as real - resourceCost as real - feePerUnit;
    var c := resourceCost as real / 100.0;
    assert c >= 0.0;
    assert c * rate <= c * rate';
    assert (base + c * rate) * units as real <= (base + c * rate') * units as real;
  }

  /** The three identifiers the page fetches: the raw resource at this tier,
      the refined item one tier down, and the refined item itself.
      An item outside the table raises `KeyError`. */
  function DeriveIds(item: string, tier: int, enchantment: int): (r: Result<(string, string, string)>)
    ensures r.Success? <==> item in PreviousRawResource
    ensures r.Failure? ==> r.error == KeyError(item)
    ensures r.Success? ==>
              && ParseId(r.value.0) == Some(ItemKey(tier, PreviousRawResource[item], EffectiveEnchantment(enchantment)))
              && ParseId(r.value.1) == Some(ItemKey(tier - 1, item, EffectiveEnchantment(enchantment)))
              && ParseId(r.value.2) == Some(ItemKey(tier, item, EffectiveEnchantment(enchantment)))
    ensures r.Success? ==> r.value.0 != r.value.1 && r.value.0 != r.value.2 && r.value.1 != r.value.2
  {
    if item !in PreviousRawResource then Failure(KeyError(item))
    else
      var raw := PreviousRawResource[item];
      ItemNamesPlain(item);
      var ids := (RawResource(tier, raw, enchantment), RawResource(tier - 1, item, enchantment), RawResource(tier, item, enchantment));
      ParseRawResource(tier, raw, enchantment);
      ParseRawResource(tier - 1, item, enchantment);
      ParseRawResource(tier, item, enchantment);
      Success(ids)
  }

  /** Item names and their raw resources hold no underscore, and no item is its own raw resource. */
  lemma ItemNamesPlain(item: string)
    requires item in PreviousRawResource
    ensures '_' !in item && '_' !in PreviousRawResource[item]
    ensures PreviousRawResource[item] != item
  {
  }

  /** The form's inputs. */
  datatype Form = Form(
    item: string,
    tier: int,
    enchantment: int,
    returnRate: real,
    returnRateFocus: real,
    fee: int,
    units: int)

  /** What the form's widgets allow: one of the five refined items, tiers 4
      to 8, enchantments 0 to 3, a fee of at least 0 and at least one unit. */
  predicate OnForm(form: Form) {
    && form.item in PreviousRawResource
    && 4 <= form.tier <= 8
    && 0 <= form.enchantment <= 3
    && form.fee >= 0
    && form.units >= 1
  }

  /** Everything the page displays or derives from one submission. */
  datatype Estimate = Estimate(
    rawResource: string,
    craftedResource: string,
    product: string,
    itemValue: int,
    rawPrice: PriceRecord,
    craftedPrice: PriceRecord,
    sellOrder: PriceRecord,
    buyOrder: PriceRecord,
    resourceCost: int,
    profits: ProfitFigures)

  /** The four profit figures: sell order or buy order, without or with focus. */
  datatype ProfitFigures = ProfitFigures(
    sellOrder: real,
    sellOrderFocus: real,
    buyOrder: real,
    buyOrderFocus: real)

  /** The four profit formulas of `main`, all sharing one resource cost and fee. */
  function Figures(form: Form, sellPrice: int, buyPrice: int, cost: int, feePerUnit: real): (p: ProfitFigures)
    ensures cost >= 0 && form.units >= 1 && form.returnRate <= form.returnRateFocus ==>
              p.sellOrder <= p.sellOrderFocus && p.buyOrder <= p.buyOrderFocus
  {
    FocusNeverLowersEither(form, sellPrice, buyPrice, cost, feePerUnit);
    ProfitFigures(
      Profit(sellPrice, cost, feePerUnit, form.returnRate, form.units),
      Profit(sellPrice, cost, feePerUnit, form.returnRateFocus, form.units),
      Profit(buyPrice, cost, feePerUnit, form.returnRate, form.units),
      Profit(buyPrice, cost, feePerUnit, form.returnRateFocus, form.units))
  }

  /** The focus rate's figures against the plain rate's, for both order prices. */
  lemma FocusNeverLowersEither(form: Form, sellPrice: int, buyPrice: int, cost: int, feePerUnit: real)
    ensures cost >= 0 && form.units >= 1 && form.returnRate <= form.returnRateFocus ==>
              && Profit(sellPrice, cost, feePerUnit, form.returnRate, form.units)
                 <= Profit(sellPrice, cost, feePerUnit, form.returnRateFocus, form.units)
              && Profit(buyPrice, cost, feePerUnit, form.returnRate, form.units)
                 <= Profit(buyPrice, cost, feePerUnit, form.returnRateFocus, form.units)
  {
    if cost >= 0 && form.units >= 1 && form.returnRate <= form.returnRateFocus {
      HigherReturnRateNeverLowersProfit(sellPrice, cost, feePerUnit, form.returnRate, form.returnRateFocus, form.units);
      HigherReturnRateNeverLowersProfit(buyPrice, cost, feePerUnit, form.returnRate, form.returnRateFocus, form.units);
    }
  }

  /** The four price rows `main` picks: the two resources' lowest buy-order
      maximum, and the product's highest sell-order minimum and highest
      buy-order maximum. */
  datatype Selection = Selection(
    rawPrice: PriceRecord,
    craftedPrice: PriceRecord,
    sellOrder: PriceRecord,
    buyOrder: PriceRecord)

  /** Each row of `s` is the first-wins choice of its rule among `prices`. */
  ghost predicate SelectedFrom(prices: seq<PriceRecord>, rawId: string, craftedId: string, productId: string, s: Selection) {
    && (exists i :: IsFirstBest(prices, rawId, BuyPriceMax, Least, i) && prices[i] == s.rawPrice)
    && (exists i :: IsFirstBest(prices, craftedId, BuyPriceMax, Least, i) && prices[i] == s.craftedPrice)
    && (exists i :: IsFirstBest(prices, productId, SellPriceMin, Greatest, i) && prices[i] == s.sellOrder)
    && (exists i :: IsFirstBest(prices, productId, BuyPriceMax, Greatest, i) && prices[i] == s.buyOrder)
  }

  /** The three price lookups of `main`, in its order: the raw resource, the
      crafted resource, then the product. */
  function SelectPrices(rawId: string, craftedId: string, productId: string, prices: seq<PriceRecord>): (r: Result<Selection>)
    ensures r.Success? <==> HasItem(prices, rawId) && HasItem(prices, craftedId) && HasItem(prices, productId)
    ensures r.Failure? ==> r.error.EmptySequence?
    ensures r.Success? ==> SelectedFrom(prices, rawId, craftedId, productId, r.value)
  {
    var rawPrice :- GetResourcePrice(rawId, prices);
    var craftedPrice :- GetResourcePrice(craftedId, prices);
    var orders :- GetProductPrice(productId, prices);
    Success(Selection(rawPrice, craftedPrice, orders.0, orders.1))
  }

  /** Bounds on the resource cost that hold whenever the buy prices are not negative. */
  lemma CostBounds(tier: int, raw: PriceRecord, crafted: PriceRecord)
    ensures ResourceCost(tier, raw, crafted).Success? && raw.buyPriceMax >= 0 && crafted.buyPriceMax >= 0 ==>
              ResourceCost(tier, raw, crafted).value >= 0
    ensures 4 <= tier <= 8 && raw.buyPriceMax >= 0 && crafted.buyPriceMax >= 0 ==>
              ResourceCost(tier, raw, crafted).value >= 2 * raw.buyPriceMax + crafted.buyPriceMax
  {
    if raw.buyPriceMax >= 0 && crafted.buyPriceMax >= 0 {
      ResourceCostNonNegative(tier, raw, crafted);
      if 4 <= tier <= 8 {
        ResourceCostMonotone(tier, raw, crafted, raw, crafted);
      }
    }
  }

  /** The part of `main` after the identifiers, the item value and the price
      rows: the resource cost and the four profit figures. With non-negative
      buy prices the cost is not negative, and on the form's tiers it is at
      least twice the raw price plus the crafted price; then a focus rate at
      least the plain one never lowers a figure. */
  function Quote(form: Form, rawId: string, craftedId: string, productId: string, itemValue: int,
                 s: Selection): (r: Result<Estimate>)
    ensures r.Success? <==> RawRequirement(form.tier).Success?
    ensures r.Failure? ==> r.error == IndexError(form.tier)
    ensures r.Success? ==>
              var e := r.value;
              && (e.rawResource, e.craftedResource, e.product, e.itemValue) == (rawId, craftedId, productId, itemValue)
              && Selection(e.rawPrice, e.craftedPrice, e.sellOrder, e.buyOrder) == s
              && ResourceCost(form.tier, e.rawPrice, e.craftedPrice) == Success(e.resourceCost)
              && e.profits == Figures(form, e.sellOrder.sellPriceMin, e.buyOrder.buyPriceMax, e.resourceCost,
                                      FeePerUnit(form.fee, NutritionCost(itemValue)))
    ensures r.Success? && s.rawPrice.buyPriceMax >= 0 && s.craftedPrice.buyPriceMax >= 0 ==>
              && r.value.resourceCost >= 0
              && (4 <= form.tier <= 8 ==>
                    r.value.resourceCost >= 2 * s.rawPrice.buyPriceMax + s.craftedPrice.buyPriceMax)
              && (form.units >= 1 && form.returnRate <= form.returnRateFocus ==>
                    && r.value.profits.sellOrder <= r.value.profits.sellOrderFocus
                    && r.value.profits.buyOrder <= r.value.profits.buyOrderFocus)
  {
    CostBounds(form.tier, s.rawPrice, s.craftedPrice);
    var cost :- ResourceCost(form.tier, s.rawPrice, s.craftedPrice);
    Success(Estimate(
      rawId, craftedId, productId, itemValue,
      s.rawPrice, s.craftedPrice, s.sellOrder, s.buyOrder, cost,
      Figures(form, s.sellOrder.sellPriceMin, s.buyOrder.buyPriceMax, cost,
              FeePerUnit(form.fee, NutritionCost(itemValue)))))
  }

  /** `main`, given the rows the market returned: the same steps in the same
      order, each exception becoming a `Failure`. On the form it fails only
      when one of the three identifiers has no row, and then picks each price
      row by the first-wins rule. */
  function Evaluate(form: Form, prices: seq<PriceRecord>): (r: Result<Estimate>)
    ensures form.item !in PreviousRawResource ==> r == Failure(KeyError(form.item))
    ensures OnForm(form) ==>
              var ids := DeriveIds(form.item, form.tier, form.enchantment).value;
              (r.Success? <==> HasItem(prices, ids.0) && HasItem(prices, ids.1) && HasItem(prices, ids.2))
    ensures r.Success? ==>
              var e := r.value;
              && DeriveIds(form.item, form.tier, form.enchantment) == Success((e.rawResource, e.craftedResource, e.product))
              && ItemValue(form.tier, form.enchantment) == Success(e.itemValue)
              && SelectedFrom(prices, e.rawResource, e.craftedResource, e.product,
                              Selection(e.rawPrice, e.craftedPrice, e.sellOrder, e.buyOrder))
              && ResourceCost(form.tier, e.rawPrice, e.craftedPrice) == Success(e.resourceCost)
              && e.profits == Figures(form, e.sellOrder.sellPriceMin, e.buyOrder.buyPriceMax, e.resourceCost,
                                      FeePerUnit(form.fee, NutritionCost(e.itemValue)))
  {
    var ids :- DeriveIds(form.item, form.tier, form.enchantment);
    var itemValue :- ItemValue(form.tier, form.enchantment);
    var s :- SelectPrices(ids.0, ids.1, ids.2, prices);
    Quote(form, ids.0, ids.1, ids.2, itemValue, s)
  }

  /** With non-negative buy prices the resource cost is not negative, and
      then a focus return rate at least the plain one never lowers either
      profit figure. */
  lemma EstimateFocusNeverLowersProfit(form: Form, prices: seq<PriceRecord>)
    requires Evaluate(form, prices).Success?
    requires Evaluate(form, prices).value.rawPrice.buyPriceMax >= 0
    requires Evaluate(form, prices).value.craftedPrice.buyPriceMax >= 0
    ensures Evaluate(form, prices).value.resourceCost >= 0
    ensures form.units >= 1 && form.returnRate <= form.returnRateFocus ==>
              && Evaluate(form, prices).value.profits.sellOrder <= Evaluate(form, prices).value.profits.sellOrderFocus
              && Evaluate(form, prices).value.profits.buyOrder <= Evaluate(form, prices).value.profits.buyOrderFocus
  {
    var e := Evaluate(form, prices).value;
    ResourceCostNonNegative(form.tier, e.rawPrice, e.craftedPrice);
  }

  /** Tier 5 planks, unenchanted: wood at tier 5, planks at tier 4 and the
      planks themselves. */
  lemma PlanksAtTierFive()
    ensures DeriveIds("PLANKS", 5, 0) == Success(("T5_WOOD", "T4_PLANKS", "T5_PLANKS"))
  {
    PlanksIdentifiers();
    assert PreviousRawResource["PLANKS"] == "WOOD";
  }

  lemma PlanksIdentifiers()
    ensures RawResource(5, "WOOD", 0) == "T5_WOOD"
    ensures RawResource(4, "PLANKS", 0) == "T4_PLANKS"
    ensures RawResource(5, "PLANKS", 0) == "T5_PLANKS"
  {
    assert IntToString(5) == "5" && IntToString(4) == "4";
  }

  /** Tier 6 leather at enchantment 2 carries the level suffix on all three identifiers. */
  lemma EnchantedLeather()
    ensures DeriveIds("LEATHER", 6, 2)
            == Success(("T6_HIDE_LEVEL2@2", "T5_LEATHER_LEVEL2@2", "T6_LEATHER_LEVEL2@2"))
  {
    LeatherIdentifiers();
    assert PreviousRawResource["LEATHER"] == "HIDE";
  }

  lemma LeatherIdentifiers()
    ensures RawResource(6, "HIDE", 2) == "T6_HIDE_LEVEL2@2"
    ensures RawResource(5, "LEATHER", 2) == "T5_LEATHER_LEVEL2@2"
    ensures RawResource(6, "LEATHER", 2) == "T6_LEATHER_LEVEL2@2"
  {
    LevelTwoSuffix();
    assert IntToString(5) == "5" && IntToString(6) == "6";
    assert Unenchanted(6, "HIDE") == "T6_HIDE";
    assert Unenchanted(5, "LEATHER") == "T5_LEATHER";
    assert Unenchanted(6, "LEATHER") == "T6_LEATHER";
  }

  lemma LevelTwoSuffix()
    ensures LevelSuffix(2) == "_LEVEL2@2"
  {
    assert IntToString(2) == "2";
  }

  /** At tier 5 with no enchantment: item value 32, so a nutrition cost of
      3.6, and three raw units per refine. */
  lemma TierFiveTables()
    ensures ItemValue(5, 0) == Success(32)
    ensures NutritionCost(32) == 3.6
    ensures RawRequirement(5) == Success(3)
  {
  }
}

=== FILE: results.dfy ===
/** Failure-carrying values shared by the whole model.

    The calculator never recovers from an error: a missing dictionary key, a
    list index out of range or a `min`/`max` over nothing aborts the page. Each
    of those exceptions becomes a `Failure` carrying the matching `Error`.
 */
module Results {

  datatype Option<+T> = None | Some(value: T)

  /** The three Python exceptions the core can raise. */
  datatype Error =
    | KeyError(key: string)        // a dictionary lookup or `pop` of an absent key
    | IndexError(index: int)       // a list subscript outside the list
    | EmptySequence(itemId: string) // `min`/`max` over records none of which match `itemId`

  /** A value or the exception that replaced it; `:-` passes the exception on. */
  datatype Result<+T> = Success(value: T) | Failure(error: Error) {
    predicate IsFailure() {
      Failure?
    }

    function PropagateFailure<U>(): Result<U>
      requires Failure?
    {
      Failure(error)
    }

    function Extract(): T
      requires Success?
    {
      value
    }
  }
}
